=== FILE: README.md ===
# Image retrieval core

A Dafny model of the retrieval core of a content-based image search,
`src/lib/other.ts`. That file does four things:

- It loads a store of per-image feature vectors. Each feature file becomes a
  key `public/image/<stem>.jpg` holding the numbers of its lines.
- It finds the query image's vector by the basename of its path.
- It scores every stored vector against the query with one of five metrics,
  chosen by name.
- It ranks the (key, score) pairs. Distances rank smallest first. Similarities
  rank largest first.

The modules follow that structure:

- `Wrappers`: `Option` and `Result`.
- `Text`: `indexOf`, `substring`, `split("\n")`, and `removeUpToChar`.
- `Paths`: the POSIX `path.basename` and `path.extname`, and the stem built from them.
- `Metrics`: the metric names, `distance_f`, the Euclidean distance and the cosine similarity.
- `FeatureStore`: `loadFeatures` and `extractReqFeatures` over an insertion-ordered store.
- `Sorting`: the stable sort of `Array.prototype.sort`.
- `Ranking`: `getkVoisins`.

Scores are `real`. Three scorers and `Math.sqrt` are kept opaque, as the four
fields of a `Backend` value that the scoring functions receive:

- `Math.sqrt`;
- OpenCV's `compareHist` with `HISTCMP_CORREL` and with `HISTCMP_INTERSECT`;
- `bhatta`. This is a local function (src/lib/other.ts:62-72) built from
  `numeric.sum`, `numeric.mul` and `Math.sqrt`. It is kept opaque because its
  unguarded square root and its division by a possibly zero sum are IEEE-754
  behaviour.

Where a property needs the square root to be one, it requires `IsSqrt`:
`sqrt(0) = 0`, and `sqrt(x)` is non-negative with square `x` for every
non-negative `x`. A feature file is a name and its text. `parseFloat(line.trim())`
is a parameter `parse` of the loader.

The store is a sequence of (key, vector) entries. This gives it the semantics
of a JavaScript object whose keys are not integer-like:

- Entries are kept in insertion order.
- Assigning an existing key overwrites the value in place.

`LoadFeatures` is proved to produce distinct keys. So iterating the store,
as `for ... in` and `Object.entries` do, visits each key once in insertion order.

Behaviours of the code that the model keeps:

- `getkVoisins` ranks the whole store. It does not truncate to k; the caller does that.
- A query whose key is absent yields `undefined`, modelled as `None`, and no error.
- A record whose only field is the trailing one becomes an empty vector, and no error.
- A feature directory with no files gives an empty store, not an error.
- The query key keeps the query's own extension. Only the directory part is dropped.
- The ranking direction is decided from the raw metric name
  (`["Correlation", "Intersection", "Cosine"].includes(distance)`), not from a
  per-metric attribute. `Ranking.DirectionOfName` proves that the two agree for
  every known name.
- `getkVoisins` on an empty store returns `[]` for any name, known or not,
  because `distance_f` is never called.

## Model

| member | source | states |
|---|---|---|
| `Text.IndexOf` | src/lib/other.ts:164 | `-1` exactly when the pattern occurs nowhere; otherwise the index of its first occurrence |
| `Text.SubstringFrom` | src/lib/other.ts:170 | the suffix from `start`, and the empty string when `start` is past the end, as `substring` clamps |
| `Text.RemoveUpToChar` | src/lib/other.ts:163-171 | the string unchanged when the character does not occur; otherwise the suffix after its first occurrence |
| `Text.RemoveUpToSingleChar` | src/lib/other.ts:163-171 | for a one-character argument that occurs, the result is strictly shorter, is a suffix, and follows the first occurrence, with no earlier occurrence before it |
| `Text.Split` | src/lib/other.ts:26 | `split("\n")` yields at least one field, and no field contains the separator |
| `Text.SplitLength` | src/lib/other.ts:26 | the number of fields is one more than the number of separators |
| `Text.JoinSplit` | src/lib/other.ts:26 | joining the fields with the separator gives back the text |
| `Text.SplitJoin` | src/lib/other.ts:26 | splitting a join of separator-free fields gives back the fields |
| `Paths.Basename` | src/lib/other.ts:45 | `path.basename` has no slash and is no longer than the path |
| `Paths.BasenameOfComponent` | src/lib/other.ts:45 | a slash-free name is its own basename |
| `Paths.BasenameAfterDirectory` | src/lib/other.ts:45 | any directory in front of a non-empty last component is dropped |
| `Paths.BasenameTrailingSlash` | src/lib/other.ts:45 | a trailing slash does not change the basename |
| `Paths.AfterLastSlashSuffix` | src/lib/other.ts:45 | the part after the last slash is a suffix, and a slash precedes it unless it is the whole string |
| `Paths.Extname` | src/lib/other.ts:30 | no contract of its own; `ExtnameShape`, `ExtensionDotFound` and the three `StemOf` lemmas characterise it |
| `Paths.ExtensionDot` | src/lib/other.ts:30 | an extension inside the name starts at a dot that is not the first character, and no dot follows it |
| `Paths.ExtensionDotFound` | src/lib/other.ts:30 | a component has an extension exactly when a dot follows its first character and it is not `..`, so `a.` and `...` have the extension `.` |
| `Paths.ExtnameShape` | src/lib/other.ts:30 | `path.extname` is empty or a dot followed by dot-free text, has no slash, and is shorter than a basename it does not fill |
| `Paths.Stem` | src/lib/other.ts:30 | stem followed by extension is the basename; the stem is empty only when the basename is |
| `Paths.StemOfDottedName` | src/lib/other.ts:30 | `n.e` has extension `.e` and stem `n` |
| `Paths.StemOfUndottedName` | src/lib/other.ts:30 | a name without a dot has no extension and is its own stem |
| `Paths.StemOfDotfile` | src/lib/other.ts:30 | a name whose only dot leads it has no extension |
| `Metrics.Parse` | src/lib/other.ts:108-130 | succeeds exactly on the five metric names, each recognised by its own name; every other string fails with that name |
| `Metrics.ParseName` | src/lib/other.ts:108-130 | every metric's name parses back to that metric |
| `Metrics.MetricError.Message` | src/lib/other.ts:128 | the thrown text ends with the rejected name |
| `Metrics.MessageInjective` | src/lib/other.ts:128 | two errors have the same message exactly when they reject the same name |
| `Metrics.DistanceF` | src/lib/other.ts:100-131 | fails exactly for names outside the five, with the name in the error; each of the five routes to its own scorer |
| `Metrics.SumSquaredDiff` | src/lib/other.ts:54-58 | the sum of squared differences is non-negative |
| `Metrics.SumSquaredDiffPrefix` | src/lib/other.ts:54-58 | only the coordinates both vectors have contribute |
| `Metrics.SumSquaredDiffSymmetric` | src/lib/other.ts:54-58 | the sum is symmetric in its arguments |
| `Metrics.SumSquaredDiffPositive` | src/lib/other.ts:54-58 | a difference in the shared prefix makes the sum positive |
| `Metrics.SumSquaredDiffEqualPrefix` | src/lib/other.ts:54-58 | equal shared prefixes make the sum zero |
| `Metrics.SumSquaredDiffZero` | src/lib/other.ts:54-58 | the sum is zero exactly when the shared prefixes are equal |
| `Metrics.Euclidean` | src/lib/other.ts:49-60 | no contract of its own; `EuclideanPrefix`, `EuclideanSymmetric`, `EuclideanNonNegative` and `EuclideanZero` characterise it |
| `Metrics.EuclideanPrefix` | src/lib/other.ts:49-60 | `euclidean` depends only on the shared prefix |
| `Metrics.EuclideanSymmetric` | src/lib/other.ts:49-60 | `euclidean(a, b) == euclidean(b, a)` |
| `Metrics.EuclideanNonNegative` | src/lib/other.ts:49-60 | the distance is non-negative |
| `Metrics.EuclideanZero` | src/lib/other.ts:49-60 | the distance is zero exactly when the shared prefixes are equal, and `euclidean(v, v)` is zero |
| `Metrics.SumOfSquares` | src/lib/other.ts:82-83 | the squared norm is non-negative; `SumOfSquaresZero` says when it is zero |
| `Metrics.SumOfSquaresZero` | src/lib/other.ts:82-83 | the squared norm is zero exactly for an all-zero vector |
| `Metrics.Dot` | src/lib/other.ts:78 | no contract of its own; it sums the products over the shared prefix, and `DotSelf` and `DotSymmetric` characterise it |
| `Metrics.DotSelf` | src/lib/other.ts:78 | a vector's dot product with itself is its squared norm |
| `Metrics.DotSymmetric` | src/lib/other.ts:78 | the dot product is symmetric (in the source, only for equal lengths) |
| `Metrics.CosineSimilarity` | src/lib/other.ts:74-88 | no contract of its own; `CosineZeroGuard`, `NormPositive`, `CosineSelf` and `CosineSymmetric` characterise it |
| `Metrics.CosineZeroGuard` | src/lib/other.ts:82-86 | a zero vector on either side gives similarity 0 |
| `Metrics.NormPositive` | src/lib/other.ts:82-86 | a non-zero vector has a positive norm, so the guard lets it through |
| `Metrics.CosineSelf` | src/lib/other.ts:74-88 | a non-zero vector has similarity 1 with itself |
| `Metrics.CosineSymmetric` | src/lib/other.ts:74-88 | the similarity is symmetric (in the source, only for equal lengths) |
| `FeatureStore.Lookup` | src/lib/other.ts:46 | `features[key]` is defined exactly when the key is stored, and is the stored vector |
| `FeatureStore.LookupFindsEntry` | src/lib/other.ts:46 | with distinct keys, `features[key]` is the vector of the one entry holding the key |
| `FeatureStore.Put` | src/lib/other.ts:30-31 | an assignment keeps the key order, or appends a new key; it sets that key, leaves every other key's value alone, and keeps keys distinct |
| `FeatureStore.ImageKey` | src/lib/other.ts:30 | no contract of its own; `ImageKeyShape` and `ImageKeyInjective` characterise it |
| `FeatureStore.ImageKeyShape` | src/lib/other.ts:30 | the key is `public/image/` followed by a basename that is the file's stem plus `.jpg` |
| `FeatureStore.ImageKeyInjective` | src/lib/other.ts:30 | two files get the same key exactly when their stems are equal |
| `FeatureStore.ParseRecord` | src/lib/other.ts:24-29 | the vector has one element per newline, one fewer than the fields; element i is the parse of field i |
| `FeatureStore.Assign` | src/lib/other.ts:22-32 | a run of `features[key] = vector` assignments leaves distinct keys and at most one entry per assignment |
| `FeatureStore.AssignKeys` | src/lib/other.ts:22-32 | after the assignments, the keys are the assigned keys in order of first assignment |
| `FeatureStore.AssignAbsent` | src/lib/other.ts:22-32 | a key never assigned is absent |
| `FeatureStore.AssignLastWins` | src/lib/other.ts:22-32 | a key holds the value of its last assignment |
| `FeatureStore.FileEntries` | src/lib/other.ts:22-31 | defines the assignment sequence and has no property of its own; `LoadFeaturesKeys`, `LoadFeaturesAbsent` and `LoadFeaturesLastWins` characterise the store it builds |
| `FeatureStore.LoadFeatures` | src/lib/other.ts:14-35 | the loaded store has distinct keys and at most one entry per file |
| `FeatureStore.Dedup` | src/lib/other.ts:30 | the same members as its input, none repeated |
| `FeatureStore.DedupFirstSeenOrder` | src/lib/other.ts:30 | the distinct keys are listed in the order of their first occurrence |
| `FeatureStore.LoadFeaturesKeys` | src/lib/other.ts:22-32 | the store's keys are the files' keys in first-seen order |
| `FeatureStore.LoadFeaturesAbsent` | src/lib/other.ts:22-32 | a key no file produces is absent |
| `FeatureStore.LoadFeaturesLastWins` | src/lib/other.ts:22-32 | a key holds the record of the last file that produces it |
| `FeatureStore.ExtractReqFeatures` | src/lib/other.ts:37-47 | found exactly when `public/image/<basename>` is stored, and then it is that entry's vector |
| `FeatureStore.ExtractIgnoresDirectory` | src/lib/other.ts:45-46 | a name under any directory resolves like the bare name |
| `FeatureStore.ExtractAfterLoad` | src/lib/other.ts:22-46 | a query whose basename is `<stem>.jpg` finds the record of the last file with that stem |
| `Sorting.Insert` | src/lib/other.ts:156 | adds exactly one entry; `InsertPermutes`, `InsertSorted` and `InsertWithScore` characterise it |
| `Sorting.InsertPermutes` | src/lib/other.ts:156 | insertion gives a permutation of the entry and the sequence |
| `Sorting.Sort` | src/lib/other.ts:156 | sorting gives a permutation of its input |
| `Sorting.InsertSorted` | src/lib/other.ts:156 | insertion into a sorted sequence keeps it sorted |
| `Sorting.InsertWithScore` | src/lib/other.ts:156 | insertion keeps each score's entries in order, with the inserted entry ahead of equal ones |
| `Sorting.SortIsStableSort` | src/lib/other.ts:154-160 | the sort is ordered by the direction, and equal scores keep their input order |
| `Sorting.SameScoresSameRanking` | src/lib/other.ts:154-160 | sorted sequences with the same entries per score are equal |
| `Sorting.StableSortUnique` | src/lib/other.ts:154-160 | every stable sort of an input is the one `Sort` computes |
| `Ranking.DirectionOfName` | src/lib/other.ts:154-160 | the direction chosen from the raw name is the parsed metric's own: descending for the three similarities, ascending otherwise |
| `Ranking.Distances` | src/lib/other.ts:147-152 | fails exactly when the store is non-empty and the name unknown; otherwise one pair per entry, in store order, whose score is `distance_f`'s |
| `Ranking.ScoredDistances` | src/lib/other.ts:147-152 | for a known name, every score is the metric's score of query and stored vector |
| `Ranking.GetKVoisins` | src/lib/other.ts:133-161 | fails exactly when the store is non-empty and the name unknown; an empty store gives `[]`; otherwise all entries are ranked, as a permutation of the scored store stably sorted in the metric's direction |
| `Ranking.GetKVoisinsUnique` | src/lib/other.ts:147-160 | any stable sort of the scored store is the ranking |
| `Ranking.GetKVoisinsRanksEveryImage` | src/lib/other.ts:147-160 | every stored key appears in the ranking with its own score |
| `Ranking.BestFirst` | src/lib/other.ts:154-160 | the head scores at least as well as every stored image in the metric's direction |
| `Ranking.ExactMatchFirst` | src/lib/other.ts:133-161 | a stored query has Euclidean score 0 at the head of its ranking |
| `Ranking.SelfMatchCosine` | src/lib/other.ts:133-161 | a stored non-zero query heads its Cosine ranking with a score of at least 1 |

## Left out

- File-system access (`fs.readdirSync`, `fs.readFileSync`, `path.join`) in `loadFeatures`. The directory is given as a sequence of (file name, text) pairs in directory order.
- `parseFloat(line.trim())`: a parameter `parse` from a field's text to a number.
- IEEE-754 behaviour: NaN, infinities and rounding. Scores are exact reals, so the NaN-poisoned comparator of the sort and the unguarded square root and division in `bhatta` (src/lib/other.ts:62-72) are not modelled.
- `cv.compareHist` for Correlation and Intersection, and the `CV_32F` conversion before it (src/lib/other.ts:94-97, 114-116): OpenCV code, modelled as opaque `Backend` scorers.
- `bhatta` (src/lib/other.ts:62-72): a local function, kept opaque as a `Backend` field because its unguarded square root and its division by a possibly zero sum are IEEE-754 behaviour.
- `Math.sqrt`: a `Backend` field, constrained by `IsSqrt` only where a lemma needs it.
- `numeric.dot(a, b)` when the query `a` is longer than the stored vector `b`. numeric.js is not part of this model, but its `dotVV` loops over the length of its first argument. So a query no longer than the stored vector gives exactly the shared-prefix sum that `Metrics.Dot` computes. A longer query reads past the end of `b` and gives NaN, where `Metrics.Dot` still sums the shared prefix. An empty query would give NaN too, but its norm is 0, so the guard at src/lib/other.ts:84-86 returns 0 before the dot product is used.
- The `console.log` in `cosineSimilarity` (src/lib/other.ts:80): output only.
- Strings are sequences of Dafny `char`, each standing for one UTF-16 code unit of a JavaScript string. No encoding, decoding or surrogate handling is modelled. Paths follow the POSIX flavour of Node's `path` module only.
- A JavaScript object cannot hold a key twice. The store keeps this as the invariant `DistinctKeys`, which `Assign` and `LoadFeatures` establish and `Put` preserves. `Ranking` accepts any sequence of entries and ranks each entry.
- src/lib/opencv.ts is not part of this model. It exports async scorers `intersection` and `correlation` (src/lib/opencv.ts:17-49) that call `compareHist`, but src/lib/other.ts does not use them; it has its own `intersection` and calls `compareHist` directly.
- src/app/actions.ts is not part of this model. It is request plumbing: the check that k is 20 or 50, and the `slice(0, k)` that truncates the ranking. `getRappelPrecision`, which src/app/actions.ts:5 imports and calls at line 46, is not defined in src/lib/other.ts.
- The user interface pages and components are not part of this model.

=== FILE: metrics.dfy ===
/** The metric library: the five named scores the retrieval core can rank
    by, and the dispatch from a metric name to its scorer (`distance_f`).
    Scores are idealised as reals. */
module Metrics {
  import opened Wrappers

  type Vector = seq<real>

  /** The closed set of metrics, named as the source names them. */
  datatype Metric = Euclidienne | Correlation | Intersection | Bhattacharyya | Cosine

  /** Whether smaller scores (a distance) or larger scores (a similarity)
      mean "closer". */
  datatype Direction = Ascending | Descending

  /** The error `distance_f` throws for a name outside the closed set. */
  datatype MetricError = UnknownDistanceName(name: string) {
    /** The text of the thrown `Error`: the rejected name closes it. */
    function Message(): (m: string)
      ensures |m| > |name| && m[|m| - |name|..] == name
    {
      "Unknown distance name: " + name
    }
  }

  /** The message identifies the error: two errors read the same exactly
      when they reject the same name. */
  lemma MessageInjective(a: MetricError, b: MetricError)
    ensures a.Message() == b.Message() <==> a == b
  {
  }

  /** The scorers kept opaque: `Math.sqrt`; OpenCV's `compareHist` with
      `HISTCMP_CORREL` and `HISTCMP_INTERSECT` on single-row `CV_32F`
      histograms; and `bhatta`. `bhatta` is a local function of the
      source, built from `numeric.sum`, `numeric.mul` and `Math.sqrt`. It is
      opaque because its unguarded square root and its division by a
      possibly zero sum are IEEE-754 behaviour. */
  datatype Backend = Backend(
    sqrt: real -> real,
    correl: (Vector, Vector) -> real,
    intersect: (Vector, Vector) -> real,
    bhatta: (Vector, Vector) -> real)

  /** `x` squared (`Math.pow(x, 2)`). */
  function Sq(x: real): real {
    x * x
  }

  lemma SqOfPositive(x: real)
    requires x > 0.0
    ensures Sq(x) > 0.0
  {
    calc {
      Sq(x);
      x * x;
    >
      0.0;
    }
  }

  lemma SqOfNegative(x: real)
    requires x < 0.0
    ensures Sq(x) > 0.0
  {
    calc {
      Sq(x);
      x * x;
      (-x) * (-x);
    >
      0.0;
    }
  }

  /** A square is non-negative, and positive away from zero. */
  lemma SquarePositive(x: real)
    ensures Sq(x) >= 0.0
    ensures x != 0.0 ==> Sq(x) > 0.0
  {
    if x > 0.0 {
      SqOfPositive(x);
    } else if x < 0.0 {
      SqOfNegative(x);
    } else {
      assert Sq(x) == 0.0;
    }
  }

  lemma SqOfDifference(x: real, y: real)
    ensures Sq(x - y) == Sq(y - x)
  {
    calc {
      Sq(x - y);
      (x - y) * (x - y);
      (y - x) * (y - x);
      Sq(y - x);
    }
  }

  /** `sqrt` is the non-negative square root on the non-negative reals,
      with `sqrt(0) == 0` stated outright. */
  ghost predicate IsSqrt(sqrt: real -> real) {
    && sqrt(0.0) == 0.0
    && forall x :: 0.0 <= x ==> 0.0 <= sqrt(x) && Sq(sqrt(x)) == x
  }

  /** The square root vanishes only at zero. */
  lemma SqrtZeroOnlyAtZero(sqrt: real -> real, x: real)
    requires IsSqrt(sqrt) && 0.0 <= x
    ensures sqrt(x) == 0.0 <==> x == 0.0
  {
    assert Sq(sqrt(x)) == x;
  }

  const MetricNames: set<string> :=
    {"Euclidienne", "Correlation", "Intersection", "Bhattacharyya", "Cosine"}

  /** The name a metric is requested by. */
  function Name(m: Metric): string {
    match m
    case Euclidienne => "Euclidienne"
    case Correlation => "Correlation"
    case Intersection => "Intersection"
    case Bhattacharyya => "Bhattacharyya"
    case Cosine => "Cosine"
  }

  /** The `switch` of `distance_f`: a metric for each of the five names and
      the unknown-name error for every other string. */
  function Parse(name: string): (r: Result<Metric, MetricError>)
    ensures r.Success? <==> name in MetricNames
    ensures r.Success? ==> Name(r.value) == name
    ensures r.Failure? ==> r.error == UnknownDistanceName(name)
  {
    if name == "Euclidienne" then Success(Euclidienne)
    else if name == "Correlation" then Success(Correlation)
    else if name == "Intersection" then Success(Intersection)
    else if name == "Bhattacharyya" then Success(Bhattacharyya)
    else if name == "Cosine" then Success(Cosine)
    else Failure(UnknownDistanceName(name))
  }

  /** Every metric is recognised by its own name. */
  lemma ParseName(m: Metric)
    ensures Name(m) in MetricNames
    ensures Parse(Name(m)) == Success(m)
  {
  }

  /** The direction each metric ranks in: the two distances ascending, the
      three similarities descending. */
  function SortDirection(m: Metric): Direction {
    match m
    case Euclidienne => Ascending
    case Bhattacharyya => Ascending
    case Correlation => Descending
    case Intersection => Descending
    case Cosine => Descending
  }

  /** The sum of `(a[i] - b[i])^2` over the indices both vectors have. */
  function SumSquaredDiff(a: Vector, b: Vector): (r: real)
    ensures r >= 0.0
  {
    if |a| == 0 || |b| == 0 then 0.0
    else SquarePositive(a[0] - b[0]); Sq(a[0] - b[0]) + SumSquaredDiff(a[1..], b[1..])
  }

  /** The dot product over the indices both vectors have. */
  function Dot(a: Vector, b: Vector): real {
    if |a| == 0 || |b| == 0 then 0.0
    else a[0] * b[0] + Dot(a[1..], b[1..])
  }

  /** The sum of `a[i]^2`: the squared norm `numeric.sum(numeric.pow(a, 2))`. */
  function SumOfSquares(a: Vector): (r: real)
    ensures r >= 0.0
  {
    if |a| == 0 then 0.0 else (SquarePositive(a[0]); Sq(a[0]) + SumOfSquares(a[1..]))
  }

  /** `euclidean(l1, l2)`. */
  function Euclidean(a: Vector, b: Vector, sqrt: real -> real): real {
    sqrt(SumSquaredDiff(a, b))
  }

  /** `cosineSimilarity(a, b)`, with its guard against a zero norm. */
  function CosineSimilarity(a: Vector, b: Vector, sqrt: real -> real): real {
    var normA := sqrt(SumOfSquares(a));
    var normB := sqrt(SumOfSquares(b));
    if normA == 0.0 || normB == 0.0 then 0.0 else Dot(a, b) / (normA * normB)
  }

  /** The scorer each metric is routed to. */
  function Score(m: Metric, a: Vector, b: Vector, backend: Backend): real {
    match m
    case Euclidienne => Euclidean(a, b, backend.sqrt)
    case Correlation => backend.correl(a, b)
    case Intersection => backend.intersect(a, b)
    case Bhattacharyya => backend.bhatta(a, b)
    case Cosine => CosineSimilarity(a, b, backend.sqrt)
  }

  /** `distance_f(l1, l2, distanceName)`. */
  function DistanceF(a: Vector, b: Vector, name: string, backend: Backend): (r: Result<real, MetricError>)
    ensures r.Failure? <==> name !in MetricNames
    ensures r.Failure? ==> r.error == UnknownDistanceName(name)
    ensures name == "Euclidienne" ==> r == Success(Euclidean(a, b, backend.sqrt))
    ensures name == "Correlation" ==> r == Success(backend.correl(a, b))
    ensures name == "Intersection" ==> r == Success(backend.intersect(a, b))
    ensures name == "Bhattacharyya" ==> r == Success(backend.bhatta(a, b))
    ensures name == "Cosine" ==> r == Success(CosineSimilarity(a, b, backend.sqrt))
  {
    var m :- Parse(name);
    Success(Score(m, a, b, backend))
  }

  // Euclidean distance

  /** Only the shared prefix `min(|a|, |b|)` takes part. */
  lemma {:induction false} SumSquaredDiffPrefix(a: Vector, b: Vector)
    ensures var n := if |a| < |b| then |a| else |b|;
      SumSquaredDiff(a, b) == SumSquaredDiff(a[..n], b[..n])
    decreases |a|
  {
    if |a| > 0 && |b| > 0 {
      SumSquaredDiffPrefix(a[1..], b[1..]);
      var n := if |a| < |b| then |a| else |b|;
      assert a[..n][1..] == a[1..][..n - 1];
      assert b[..n][1..] == b[1..][..n - 1];
    }
  }

  lemma {:induction false} SumSquaredDiffSymmetric(a: Vector, b: Vector)
    ensures SumSquaredDiff(a, b) == SumSquaredDiff(b, a)
    decreases |a|
  {
    if |a| > 0 && |b| > 0 {
      SumSquaredDiffSymmetric(a[1..], b[1..]);
      SqOfDifference(a[0], b[0]);
    }
  }

  /** The sum is positive as soon as the shared prefixes differ. */
  lemma {:induction false} SumSquaredDiffPositive(a: Vector, b: Vector, i: nat)
    requires i < |a| && i < |b| && a[i] != b[i]
    ensures SumSquaredDiff(a, b) > 0.0
    decreases i
  {
    var d := a[0] - b[0];
    SquarePositive(d);
    var rest := SumSquaredDiff(a[1..], b[1..]);
    if i > 0 {
      assert a[1..][i - 1] == a[i] && b[1..][i - 1] == b[i];
      SumSquaredDiffPositive(a[1..], b[1..], i - 1);
    }
  }

  /** The sum is zero when the shared prefixes agree. */
  lemma {:induction false} SumSquaredDiffEqualPrefix(a: Vector, b: Vector)
    requires forall i :: 0 <= i < |a| && i < |b| ==> a[i] == b[i]
    ensures SumSquaredDiff(a, b) == 0.0
    decreases |a|
  {
    if |a| > 0 && |b| > 0 {
      assert a[0] == b[0];
      SumSquaredDiffEqualPrefix(a[1..], b[1..]);
    }
  }

  /** The sum vanishes exactly when the shared prefixes agree. */
  lemma SumSquaredDiffZero(a: Vector, b: Vector)
    ensures var n := if |a| < |b| then |a| else |b|;
      SumSquaredDiff(a, b) == 0.0 <==> a[..n] == b[..n]
  {
    var n := if |a| < |b| then |a| else |b|;
    if a[..n] == b[..n] {
      forall i | 0 <= i < |a| && i < |b| ensures a[i] == b[i] {
        assert a[..n][i] == b[..n][i];
      }
      SumSquaredDiffEqualPrefix(a, b);
    } else {
      var i :| 0 <= i < n && a[..n][i] != b[..n][i];
      SumSquaredDiffPositive(a, b, i);
    }
  }

  /** `euclidean` depends only on the first `min(|l1|, |l2|)` coordinates. */
  lemma EuclideanPrefix(a: Vector, b: Vector, sqrt: real -> real)
    ensures var n := if |a| < |b| then |a| else |b|;
      Euclidean(a, b, sqrt) == Euclidean(a[..n], b[..n], sqrt)
  {
    SumSquaredDiffPrefix(a, b);
  }

  lemma EuclideanSymmetric(a: Vector, b: Vector, sqrt: real -> real)
    ensures Euclidean(a, b, sqrt) == Euclidean(b, a, sqrt)
  {
    SumSquaredDiffSymmetric(a, b);
  }

  lemma EuclideanNonNegative(a: Vector, b: Vector, sqrt: real -> real)
    requires IsSqrt(sqrt)
    ensures Euclidean(a, b, sqrt) >= 0.0
  {
  }

  /** The distance is zero exactly when the shared prefixes agree; in
      particular `euclidean(v, v)` is zero. */
  lemma EuclideanZero(a: Vector, b: Vector, sqrt: real -> real)
    requires IsSqrt(sqrt)
    ensures var n := if |a| < |b| then |a| else |b|;
      Euclidean(a, b, sqrt) == 0.0 <==> a[..n] == b[..n]
    ensures Euclidean(a, a, sqrt) == 0.0
  {
    SumSquaredDiffZero(a, b);
    SumSquaredDiffEqualPrefix(a, a);
    SqrtZeroOnlyAtZero(sqrt, SumSquaredDiff(a, b));
  }

  // Cosine similarity

  /** A vector all of whose coordinates are zero. */
  predicate IsZeroVector(a: Vector) {
    forall i :: 0 <= i < |a| ==> a[i] == 0.0
  }

  lemma {:induction false} SumOfSquaresZeroVector(a: Vector)
    requires IsZeroVector(a)
    ensures SumOfSquares(a) == 0.0
    decreases |a|
  {
    if |a| > 0 {
      assert IsZeroVector(a[1..]) by {
        assert forall i :: 1 <= i < |a| ==> a[1..][i - 1] == a[i];
      }
      SumOfSquaresZeroVector(a[1..]);
    }
  }

  lemma {:induction false} SumOfSquaresPositive(a: Vector, i: nat)
    requires i < |a| && a[i] != 0.0
    ensures SumOfSquares(a) > 0.0
    decreases i
  {
    SquarePositive(a[0]);
    if i > 0 {
      assert a[1..][i - 1] == a[i];
      SumOfSquaresPositive(a[1..], i - 1);
    }
  }

  /** The squared norm vanishes exactly on the zero vector. */
  lemma SumOfSquaresZero(a: Vector)
    ensures SumOfSquares(a) == 0.0 <==> IsZeroVector(a)
  {
    if IsZeroVector(a) {
      SumOfSquaresZeroVector(a);
    } else {
      var i :| 0 <= i < |a| && a[i] != 0.0;
      SumOfSquaresPositive(a, i);
    }
  }

  /** A vector's dot product with itself is its squared norm. */
  lemma {:induction false} DotSelf(a: Vector)
    ensures Dot(a, a) == SumOfSquares(a)
    decreases |a|
  {
    if |a| > 0 {
      DotSelf(a[1..]);
    }
  }

  lemma {:induction false} DotSymmetric(a: Vector, b: Vector)
    ensures Dot(a, b) == Dot(b, a)
    decreases |a|
  {
    if |a| > 0 && |b| > 0 {
      DotSymmetric(a[1..], b[1..]);
    }
  }

  /** The zero-norm guard: a zero vector on either side scores 0 rather
      than dividing by zero. */
  lemma CosineZeroGuard(a: Vector, b: Vector, sqrt: real -> real)
    requires IsSqrt(sqrt)
    requires IsZeroVector(a) || IsZeroVector(b)
    ensures CosineSimilarity(a, b, sqrt) == 0.0
  {
    SumOfSquaresZero(a);
    SumOfSquaresZero(b);
  }

  /** A non-zero vector has a positive norm, so the guard lets it through. */
  lemma NormPositive(a: Vector, sqrt: real -> real)
    requires IsSqrt(sqrt)
    requires !IsZeroVector(a)
    ensures sqrt(SumOfSquares(a)) > 0.0
  {
    SumOfSquaresZero(a);
    SqrtZeroOnlyAtZero(sqrt, SumOfSquares(a));
  }

  /** A non-zero vector has similarity 1 with itself. */
  lemma CosineSelf(a: Vector, sqrt: real -> real)
    requires IsSqrt(sqrt)
    requires !IsZeroVector(a)
    ensures CosineSimilarity(a, a, sqrt) == 1.0
  {
    NormPositive(a, sqrt);
    DotSelf(a);
    var n := sqrt(SumOfSquares(a));
    calc {
      n * n;
      Sq(n);
      SumOfSquares(a);
    }
    assert n * n > 0.0;
    assert Dot(a, a) / (n * n) == 1.0;
  }

  lemma CosineSymmetric(a: Vector, b: Vector, sqrt: real -> real)
    ensures CosineSimilarity(a, b, sqrt) == CosineSimilarity(b, a, sqrt)
  {
    DotSymmetric(a, b);
    var na, nb := sqrt(SumOfSquares(a)), sqrt(SumOfSquares(b));
    assert na * nb == nb * na;
  }
}

=== FILE: paths.dfy ===
/** The POSIX flavour of Node's `path.basename` and `path.extname`, which the
    feature store uses to turn file names into image keys. */
module Paths {

  /** `p` without its run of trailing slashes. */
  function StripTrailingSlashes(p: string): (r: string)
    ensures |r| <= |p|
    ensures r == p[..|r|]
    ensures |r| == 0 || r[|r| - 1] != '/'
  {
    if |p| > 0 && p[|p| - 1] == '/' then StripTrailingSlashes(p[..|p| - 1]) else p
  }

  /** The part of `s` after its last slash (all of `s` when it has none). */
  function AfterLastSlash(s: string): (r: string)
    ensures '/' !in r
    ensures |r| <= |s|
  {
    if |s| == 0 || s[|s| - 1] == '/' then
      ""
    else
      var r := AfterLastSlash(s[..|s| - 1]) + [s[|s| - 1]];
      assert s == s[..|s| - 1] + [s[|s| - 1]];
      r
  }

  /** The part after the last slash is a suffix, and a slash precedes it
      unless it is the whole string. */
  lemma {:induction false} AfterLastSlashSuffix(s: string)
    ensures var r := AfterLastSlash(s);
      && r == s[|s| - |r|..]
      && (|r| < |s| ==> s[|s| - |r| - 1] == '/')
    decreases |s|
  {
    if |s| > 0 && s[|s| - 1] != '/' {
      var front := s[..|s| - 1];
      AfterLastSlashSuffix(front);
      var r' := AfterLastSlash(front);
      assert AfterLastSlash(s) == r' + [s[|s| - 1]];
      assert s == front + [s[|s| - 1]];
      assert front[|front| - |r'|..] + [s[|s| - 1]] == s[|s| - |r'| - 1..];
    }
  }

  /** `path.basename(p)`: the last path component, trailing slashes ignored. */
  function Basename(p: string): (r: string)
    ensures '/' !in r
    ensures |r| <= |p|
  {
    AfterLastSlash(StripTrailingSlashes(p))
  }

  /** A name without slashes is its own basename. */
  lemma BasenameOfComponent(c: string)
    requires '/' !in c
    ensures Basename(c) == c
  {
    assert StripTrailingSlashes(c) == c;
    AfterLastSlashOfComponent(c);
  }

  lemma {:induction false} AfterLastSlashOfComponent(c: string)
    requires '/' !in c
    ensures AfterLastSlash(c) == c
    decreases |c|
  {
    if |c| > 0 {
      assert c[|c| - 1] in c;
      AfterLastSlashOfComponent(c[..|c| - 1]);
      assert c == c[..|c| - 1] + [c[|c| - 1]];
    }
  }

  /** Directories in front of a non-empty last component are dropped. */
  lemma {:induction false} BasenameAfterDirectory(d: string, c: string)
    requires '/' !in c && |c| > 0
    ensures Basename(d + "/" + c) == c
    decreases |c|
  {
    var p := d + "/" + c;
    assert p[|p| - 1] == c[|c| - 1] by { assert c[|c| - 1] in c; }
    assert StripTrailingSlashes(p) == p;
    if |c| == 1 {
      assert p[..|p| - 1] == d + "/";
      assert AfterLastSlash(p) == AfterLastSlash(d + "/") + [c[0]];
    } else {
      assert p[..|p| - 1] == d + "/" + c[..|c| - 1];
      assert c[..|c| - 1][|c| - 2] in c;
      BasenameAfterDirectory(d, c[..|c| - 1]);
      assert '/' !in c[..|c| - 1] by {
        var c' := c[..|c| - 1];
        forall i | 0 <= i < |c'| ensures c'[i] != '/' {
          assert c'[i] == c[i] && c[i] in c;
        }
      }
      var q := d + "/" + c[..|c| - 1];
      assert StripTrailingSlashes(q) == q;
      assert c == c[..|c| - 1] + [c[|c| - 1]];
    }
  }

  /** A trailing slash does not change the basename. */
  lemma BasenameTrailingSlash(p: string)
    ensures Basename(p + "/") == Basename(p)
  {
    assert (p + "/")[..|p|] == p;
  }

  /** The index of the last `ch` in `s`, or -1. */
  function LastIndexOf(s: string, ch: char): (i: int)
    ensures -1 <= i < |s|
    ensures i == -1 ==> ch !in s
    ensures i >= 0 ==> s[i] == ch && ch !in s[i + 1..]
  {
    if |s| == 0 then
      -1
    else if s[|s| - 1] == ch then
      |s| - 1
    else
      var i := LastIndexOf(s[..|s| - 1], ch);
      assert s == s[..|s| - 1] + [s[|s| - 1]];
      i
  }

  /** Where the extension of one path component starts: at its last dot,
      except that a component whose only dot leads it (".profile"), or the
      component "..", has no extension, which starts at its end. */
  function ExtensionDot(c: string): (i: nat)
    ensures i <= |c|
    ensures i < |c| ==> 0 < i && c[i] == '.' && '.' !in c[i + 1..]
  {
    var i := LastIndexOf(c, '.');
    if i <= 0 || c == ".." then |c| else i
  }

  /** A component has an extension exactly when a dot follows its first
      character and it is not "..": so "a." and "..." have the extension ".". */
  lemma ExtensionDotFound(c: string)
    ensures ExtensionDot(c) < |c| <==> |c| > 0 && '.' in c[1..] && c != ".."
  {
    var i := ExtensionDot(c);
    if i < |c| {
      assert c[1..][i - 1] == '.';
    }
    if |c| > 0 && '.' in c[1..] {
      var k :| 0 <= k < |c| - 1 && c[1..][k] == '.';
      assert c[k + 1] == '.';
    }
  }

  /** `path.extname(p)`: the basename from its extension dot on. */
  function Extname(p: string): string {
    var c := Basename(p);
    c[ExtensionDot(c)..]
  }

  /** The extension is empty or a dot followed by dot-free text, it has no
      slash, and a non-empty one is shorter than the basename. */
  lemma ExtnameShape(p: string)
    ensures var r := Extname(p);
      && (r == "" || (r[0] == '.' && '.' !in r[1..] && |r| < |Basename(p)|))
      && '/' !in r
  {
    var c := Basename(p);
    var i := ExtensionDot(c);
    var r := c[i..];
    if i < |c| {
      assert r[1..] == c[i + 1..];
    }
    forall k | 0 <= k < |r| ensures r[k] != '/' {
      assert r[k] == c[i + k];
    }
  }

  /** `path.basename(p, path.extname(p))`: the last component without its
      extension. It is empty only when the basename is. */
  function Stem(p: string): (r: string)
    ensures r + Extname(p) == Basename(p)
    ensures '/' !in r
    ensures |r| == 0 <==> |Basename(p)| == 0
  {
    var c := Basename(p);
    var i := ExtensionDot(c);
    assert c[..i] + c[i..] == c;
    assert '/' !in c[..i] by {
      forall k | 0 <= k < i ensures c[..i][k] != '/' {
        assert c[..i][k] == c[k];
      }
    }
    c[..i]
  }

  /** A name with one dot followed by a non-empty extension loses exactly
      that extension. */
  lemma StemOfDottedName(n: string, e: string)
    requires '/' !in n && |n| > 0
    requires '/' !in e && '.' !in e && |e| > 0
    ensures Extname(n + "." + e) == "." + e
    ensures Stem(n + "." + e) == n
  {
    var c := n + "." + e;
    NoSlashInDotted(n, e);
    ComponentExtension(c);
    DotBeforeExtension(n, e);
    assert c[|n|..] == "." + e;
    assert c[..|n|] == n;
  }

  /** For a name without slashes, the extension and the stem split the
      name itself at its extension dot. */
  lemma ComponentExtension(c: string)
    requires '/' !in c
    ensures Extname(c) == c[ExtensionDot(c)..]
    ensures Stem(c) == c[..ExtensionDot(c)]
  {
    BasenameOfComponent(c);
  }

  lemma NoSlashInDotted(n: string, e: string)
    requires '/' !in n && '/' !in e
    ensures '/' !in n + "." + e
  {
  }

  /** The extension of `n.e`, with `e` free of dots, starts at that dot. */
  lemma DotBeforeExtension(n: string, e: string)
    requires '.' !in e && |n| > 0 && |e| > 0
    ensures ExtensionDot(n + "." + e) == |n|
  {
    var c := n + "." + e;
    assert c[|n|] == '.';
    assert c[|n| + 1..] == e;
  }

  /** A name without any dot is its own stem. */
  lemma StemOfUndottedName(n: string)
    requires '/' !in n && '.' !in n
    ensures Extname(n) == ""
    ensures Stem(n) == n
  {
    BasenameOfComponent(n);
  }

  /** A dot-file whose only dot leads it keeps its whole name as stem. */
  lemma StemOfDotfile(n: string)
    requires '/' !in n && '.' !in n && |n| > 0
    ensures Extname("." + n) == ""
    ensures Stem("." + n) == "." + n
  {
    var c := "." + n;
    assert '/' !in c;
    BasenameOfComponent(c);
    assert c[1..] == n;
    assert LastIndexOf(c, '.') == 0;
  }
}

=== FILE: ranking.dfy ===
/** `getkVoisins`: score every stored image against the query and rank the
    (key, score) pairs, smallest first for the distances and largest first
    for the similarities. */
module Ranking {
  import opened Wrappers
  import opened Metrics
  import FeatureStore
  import Sorting

  type Ranked = Sorting.Ranked

  /** The names whose scores rank largest first. */
  const LargestFirst: seq<string> := ["Correlation", "Intersection", "Cosine"]

  /** The ranking direction, decided from the raw name as `getkVoisins`
      does. It agrees with the metric's own direction for every known name;
      an unknown name ranks ascending, which only matters when there was
      nothing to score. */
  function DirectionOfName(name: string): (d: Direction)
    ensures Parse(name).Success? ==> d == SortDirection(Parse(name).value)
    ensures Parse(name).Failure? ==> d == Ascending
  {
    if name in LargestFirst then Descending else Ascending
  }

  /** Every stored image paired with its score under `m`, in store order. */
  function Scored(query: Vector, st: FeatureStore.Store, m: Metric, backend: Backend): seq<Ranked> {
    seq(|st|, i requires 0 <= i < |st| => (st[i].key, Score(m, query, st[i].vector, backend)))
  }

  /** The loop filling `distances`: one `distance_f` call per stored image,
      the first failing call aborting the whole loop. */
  function Distances(query: Vector, st: FeatureStore.Store, name: string, backend: Backend)
    : (r: Result<seq<Ranked>, MetricError>)
    ensures r.Failure? <==> |st| > 0 && name !in MetricNames
    ensures r.Failure? ==> r.error == UnknownDistanceName(name)
    ensures r.Success? ==> |r.value| == |st|
    ensures r.Success? ==> forall i :: 0 <= i < |st| ==>
      r.value[i].0 == st[i].key && DistanceF(query, st[i].vector, name, backend) == Success(r.value[i].1)
  {
    if |st| == 0 then
      Success([])
    else
      var d :- DistanceF(query, st[0].vector, name, backend);
      match Distances(query, st[1..], name, backend)
      case Success(rest) => Success([(st[0].key, d)] + rest)
      case Failure(e) => Failure(e)
  }

  /** `getkVoisins(featureReq, features, distance)`. Every stored image is
      ranked (nothing is cut to k here); an unknown name fails as soon as
      there is an image to score. */
  function GetKVoisins(query: Vector, st: FeatureStore.Store, name: string, backend: Backend)
    : (r: Result<seq<Ranked>, MetricError>)
    ensures r.Failure? <==> |st| > 0 && name !in MetricNames
    ensures r.Failure? ==> r.error == UnknownDistanceName(name)
    ensures |st| == 0 ==> r == Success([])
    ensures r.Success? ==> |r.value| == |st|
    ensures r.Success? && |st| > 0 ==>
      var m := Parse(name).value;
      && multiset(r.value) == multiset(Scored(query, st, m, backend))
      && Sorting.IsStableSortOf(SortDirection(m), r.value, Scored(query, st, m, backend))
  {
    var ds :- Distances(query, st, name, backend);
    var dir := DirectionOfName(name);
    Sorting.SortIsStableSort(dir, ds);
    DistancesScored(query, st, name, backend);
    Success(Sorting.Sort(dir, ds))
  }

  /** Distances that were computed for a non-empty store are the scores of
      a known metric. */
  lemma DistancesScored(query: Vector, st: FeatureStore.Store, name: string, backend: Backend)
    requires Distances(query, st, name, backend).Success?
    ensures |st| > 0 ==>
      && name in MetricNames
      && Distances(query, st, name, backend) == Success(Scored(query, st, Parse(name).value, backend))
  {
    if |st| > 0 {
      ScoredDistances(query, st, name, backend);
    }
  }

  /** For a known name, the scores `distance_f` gives are the metric's. */
  lemma ScoredDistances(query: Vector, st: FeatureStore.Store, name: string, backend: Backend)
    requires name in MetricNames
    ensures Distances(query, st, name, backend) == Success(Scored(query, st, Parse(name).value, backend))
  {
    var ds := Distances(query, st, name, backend).value;
    var m := Parse(name).value;
    var s := Scored(query, st, m, backend);
    forall i | 0 <= i < |st| ensures ds[i] == s[i] {
      assert DistanceF(query, st[i].vector, name, backend) == Success(Score(m, query, st[i].vector, backend));
    }
    assert ds == s;
  }

  /** The ranking is exactly the stable sort of the scored store: any
      sequence that is one is the result. */
  lemma GetKVoisinsUnique(query: Vector, st: FeatureStore.Store, m: Metric, backend: Backend, out: seq<Ranked>)
    requires Sorting.IsStableSortOf(SortDirection(m), out, Scored(query, st, m, backend))
    ensures GetKVoisins(query, st, Name(m), backend) == Success(out)
  {
    ParseName(m);
    var s := Scored(query, st, m, backend);
    Sorting.StableSortUnique(SortDirection(m), out, s);
    ScoredDistances(query, st, Name(m), backend);
  }

  /** Each stored key is ranked once, with its own score. */
  lemma GetKVoisinsRanksEveryImage(query: Vector, st: FeatureStore.Store, m: Metric, backend: Backend, i: nat)
    requires i < |st|
    ensures GetKVoisins(query, st, Name(m), backend).Success?
    ensures (st[i].key, Score(m, query, st[i].vector, backend)) in GetKVoisins(query, st, Name(m), backend).value
  {
    ParseName(m);
    var s := Scored(query, st, m, backend);
    assert s[i] in multiset(s);
  }

  /** The head of the ranking scores at least as well as every stored image:
      the nearest one for a distance, the most similar for a similarity. */
  lemma {:induction false} BestFirst(query: Vector, st: FeatureStore.Store, m: Metric, backend: Backend, i: nat)
    requires i < |st|
    ensures GetKVoisins(query, st, Name(m), backend).Success?
    ensures var r := GetKVoisins(query, st, Name(m), backend).value;
      Sorting.InOrder(SortDirection(m), r[0].1, Score(m, query, st[i].vector, backend))
  {
    ParseName(m);
    var r := GetKVoisins(query, st, Name(m), backend).value;
    var p := (st[i].key, Score(m, query, st[i].vector, backend));
    GetKVoisinsRanksEveryImage(query, st, m, backend, i);
    var j :| 0 <= j < |r| && r[j] == p;
    if j > 0 {
      assert Sorting.Sorted(SortDirection(m), r);
      assert Sorting.InOrder(SortDirection(m), r[0].1, r[j].1);
    }
  }

  /** A query whose own vector is stored is ranked at distance zero by the
      Euclidean metric, given a square root that is one. */
  lemma ExactMatchFirst(query: Vector, st: FeatureStore.Store, backend: Backend, i: nat)
    requires IsSqrt(backend.sqrt)
    requires i < |st| && st[i].vector == query
    ensures GetKVoisins(query, st, "Euclidienne", backend).Success?
    ensures GetKVoisins(query, st, "Euclidienne", backend).value[0].1 == 0.0
  {
    var r := GetKVoisins(query, st, "Euclidienne", backend).value;
    BestFirst(query, st, Euclidienne, backend, i);
    EuclideanZero(query, query, backend.sqrt);
    assert r[0] in multiset(Scored(query, st, Euclidienne, backend));
    var s := Scored(query, st, Euclidienne, backend);
    var j :| 0 <= j < |s| && s[j] == r[0];
    EuclideanNonNegative(query, st[j].vector, backend.sqrt);
  }

  /** A stored non-zero query heads its own Cosine ranking with a score of
      at least 1, given a square root that is one. */
  lemma SelfMatchCosine(query: Vector, st: FeatureStore.Store, backend: Backend, i: nat)
    requires IsSqrt(backend.sqrt) && !IsZeroVector(query)
    requires i < |st| && st[i].vector == query
    ensures GetKVoisins(query, st, "Cosine", backend).Success?
    ensures GetKVoisins(query, st, "Cosine", backend).value[0].1 >= 1.0
  {
    BestFirst(query, st, Cosine, backend, i);
    CosineSelf(query, backend.sqrt);
  }
}

=== FILE: sorting.dfy ===
/** The stable sort `getkVoisins` applies to its (key, score) pairs:
    `Array.prototype.sort` with the comparator `a[1] - b[1]` (ascending) or
    `b[1] - a[1]` (descending), which is stable since the 2019 edition of
    ECMA-262. It is modelled as an insertion sort, proved to be a sorted
    permutation that keeps equal scores in their original order, and proved
    to be the only sequence with those properties. */
module Sorting {
  import opened Metrics

  /** A ranked neighbour: an image key and its score. */
  type Ranked = (string, real)

  /** `x` may precede `y` in a ranking of direction `dir`. */
  predicate InOrder(dir: Direction, x: real, y: real) {
    match dir
    case Ascending => x <= y
    case Descending => x >= y
  }

  predicate Sorted(dir: Direction, s: seq<Ranked>) {
    forall i, j :: 0 <= i < j < |s| ==> InOrder(dir, s[i].1, s[j].1)
  }

  /** The entries of `s` whose score is `v`, in their order in `s`. */
  function WithScore(s: seq<Ranked>, v: real): (r: seq<Ranked>)
    ensures |r| <= |s|
  {
    if |s| == 0 then [] else (if s[0].1 == v then [s[0]] else []) + WithScore(s[1..], v)
  }

  /** The entries with score `v` are exactly the members of `s` scoring `v`. */
  lemma {:induction false} WithScoreMembers(s: seq<Ranked>, v: real, x: Ranked)
    ensures x in WithScore(s, v) <==> x in s && x.1 == v
    decreases |s|
  {
    if |s| > 0 {
      WithScoreMembers(s[1..], v, x);
      assert s == [s[0]] + s[1..];
    }
  }

  /** `out` is a stable sort of `s`: sorted, and for every score the
      entries carrying it appear in the same order as in `s`. */
  ghost predicate IsStableSortOf(dir: Direction, out: seq<Ranked>, s: seq<Ranked>) {
    && Sorted(dir, out)
    && forall v :: WithScore(out, v) == WithScore(s, v)
  }

  /** Inserts `x` before the first entry it may precede. */
  function Insert(dir: Direction, x: Ranked, t: seq<Ranked>): (r: seq<Ranked>)
    ensures |r| == |t| + 1
  {
    if |t| == 0 || InOrder(dir, x.1, t[0].1) then
      [x] + t
    else
      [t[0]] + Insert(dir, x, t[1..])
  }

  /** Insertion adds `x` and loses nothing. */
  lemma {:induction false} InsertPermutes(dir: Direction, x: Ranked, t: seq<Ranked>)
    ensures multiset(Insert(dir, x, t)) == multiset([x] + t)
    decreases |t|
  {
    if |t| > 0 && !InOrder(dir, x.1, t[0].1) {
      InsertPermutes(dir, x, t[1..]);
      assert t == [t[0]] + t[1..];
    }
  }

  /** The ranking order: insertion sort from the last entry forward, so
      every entry goes in front of the later entries that tie with it. */
  function Sort(dir: Direction, s: seq<Ranked>): (r: seq<Ranked>)
    ensures multiset(r) == multiset(s)
    ensures |r| == |s|
  {
    if |s| == 0 then
      []
    else
      assert s == [s[0]] + s[1..];
      InsertPermutes(dir, s[0], Sort(dir, s[1..]));
      Insert(dir, s[0], Sort(dir, s[1..]))
  }

  lemma {:induction false} InsertSorted(dir: Direction, x: Ranked, t: seq<Ranked>)
    requires Sorted(dir, t)
    ensures Sorted(dir, Insert(dir, x, t))
    decreases |t|
  {
    if |t| > 0 && !InOrder(dir, x.1, t[0].1) {
      var rest := Insert(dir, x, t[1..]);
      InsertSorted(dir, x, t[1..]);
      InsertPermutes(dir, x, t[1..]);
      var r := [t[0]] + rest;
      forall j | 0 < j < |r| ensures InOrder(dir, t[0].1, r[j].1) {
        assert r[j] in multiset(rest);
        assert r[j] in multiset([x] + t[1..]);
        if r[j] != x {
          assert r[j] in t[1..];
          var k :| 0 <= k < |t[1..]| && t[1..][k] == r[j];
          assert t[k + 1] == r[j];
        }
      }
    }
  }

  lemma WithScoreAppend(a: seq<Ranked>, b: seq<Ranked>, v: real)
    ensures WithScore(a + b, v) == WithScore(a, v) + WithScore(b, v)
  {
    if |a| > 0 {
      assert (a + b)[1..] == a[1..] + b;
      WithScoreAppend(a[1..], b, v);
    } else {
      assert a + b == b;
    }
  }

  /** Insertion keeps every score's entries in order, with `x` ahead of the
      entries of `t` that tie with it. */
  lemma {:induction false} InsertWithScore(dir: Direction, x: Ranked, t: seq<Ranked>, v: real)
    ensures WithScore(Insert(dir, x, t), v) == WithScore([x] + t, v)
    decreases |t|
  {
    if |t| > 0 && !InOrder(dir, x.1, t[0].1) {
      var rest := t[1..];
      var ins := Insert(dir, x, rest);
      assert Insert(dir, x, t) == [t[0]] + ins;
      assert t == [t[0]] + rest;
      var h0: seq<Ranked> := if t[0].1 == v then [t[0]] else [];
      var hx: seq<Ranked> := if x.1 == v then [x] else [];
      assert t[0].1 != x.1;
      assert h0 + hx == hx + h0;
      calc {
        WithScore(Insert(dir, x, t), v);
        { WithScoreCons(t[0], ins, v); }
        h0 + WithScore(ins, v);
        { InsertWithScore(dir, x, rest, v); WithScoreCons(x, rest, v); }
        h0 + (hx + WithScore(rest, v));
        hx + (h0 + WithScore(rest, v));
        { WithScoreCons(t[0], rest, v); }
        hx + WithScore(t, v);
        { WithScoreCons(x, t, v); }
        WithScore([x] + t, v);
      }
    }
  }

  lemma WithScoreCons(x: Ranked, s: seq<Ranked>, v: real)
    ensures WithScore([x] + s, v) == (if x.1 == v then [x] else []) + WithScore(s, v)
  {
    assert ([x] + s)[1..] == s;
  }

  /** `Sort` is a stable sort. */
  lemma {:induction false} SortIsStableSort(dir: Direction, s: seq<Ranked>)
    ensures IsStableSortOf(dir, Sort(dir, s), s)
    decreases |s|
  {
    if |s| > 0 {
      var rest := Sort(dir, s[1..]);
      SortIsStableSort(dir, s[1..]);
      InsertSorted(dir, s[0], rest);
      forall v ensures WithScore(Sort(dir, s), v) == WithScore(s, v) {
        InsertWithScore(dir, s[0], rest, v);
        WithScoreAppend([s[0]], rest, v);
        WithScoreAppend([s[0]], s[1..], v);
        assert s == [s[0]] + s[1..];
      }
    }
  }

  /** A sequence that agrees on every score's entries with a non-empty one
      is non-empty. */
  lemma NonEmptyAlike(a: seq<Ranked>, b: seq<Ranked>)
    requires forall v :: WithScore(a, v) == WithScore(b, v)
    requires |a| > 0
    ensures |b| > 0
  {
    WithScoreMembers(a, a[0].1, a[0]);
    WithScoreMembers(b, a[0].1, a[0]);
  }

  /** Sorted sequences that agree on every score's entries start alike. */
  lemma SameHead(dir: Direction, a: seq<Ranked>, b: seq<Ranked>)
    requires Sorted(dir, a) && Sorted(dir, b)
    requires forall v :: WithScore(a, v) == WithScore(b, v)
    requires |a| > 0 && |b| > 0
    ensures a[0] == b[0]
  {
    WithScoreMembers(a, a[0].1, a[0]);
    WithScoreMembers(b, a[0].1, a[0]);
    WithScoreMembers(b, b[0].1, b[0]);
    WithScoreMembers(a, b[0].1, b[0]);
    var ia :| 0 <= ia < |b| && b[ia] == a[0];
    var ib :| 0 <= ib < |a| && a[ib] == b[0];
    assert InOrder(dir, b[0].1, a[0].1) by { if ia > 0 { assert InOrder(dir, b[0].1, b[ia].1); } }
    assert InOrder(dir, a[0].1, b[0].1) by { if ib > 0 { assert InOrder(dir, a[0].1, a[ib].1); } }
    var v := a[0].1;
    assert b[0].1 == v;
    assert WithScore(a, v)[0] == a[0];
    assert WithScore(b, v)[0] == b[0];
  }

  /** Dropping a common head keeps two sequences agreeing on every score. */
  lemma SameScoresTail(a: seq<Ranked>, b: seq<Ranked>)
    requires forall v :: WithScore(a, v) == WithScore(b, v)
    requires |a| > 0 && |b| > 0 && a[0] == b[0]
    ensures forall v :: WithScore(a[1..], v) == WithScore(b[1..], v)
  {
    forall u ensures WithScore(a[1..], u) == WithScore(b[1..], u) {
      var head: seq<Ranked> := if a[0].1 == u then [a[0]] else [];
      assert WithScore(a, u) == head + WithScore(a[1..], u);
      assert WithScore(b, u) == head + WithScore(b[1..], u);
      assert WithScore(a[1..], u) == WithScore(a, u)[|head|..];
      assert WithScore(b[1..], u) == WithScore(b, u)[|head|..];
    }
  }

  /** Two sorted sequences that agree on every score's entries are equal. */
  lemma {:induction false} SameScoresSameRanking(dir: Direction, a: seq<Ranked>, b: seq<Ranked>)
    requires Sorted(dir, a) && Sorted(dir, b)
    requires forall v :: WithScore(a, v) == WithScore(b, v)
    ensures a == b
    decreases |a|
  {
    if |a| > 0 {
      NonEmptyAlike(a, b);
      SameHead(dir, a, b);
      SameScoresTail(a, b);
      SameScoresSameRanking(dir, a[1..], b[1..]);
      assert a == [a[0]] + a[1..];
      assert b == [b[0]] + b[1..];
    } else if |b| > 0 {
      NonEmptyAlike(b, a);
    }
  }

  /** A stable sort is unique: any sequence that is a stable sort of `s` is
      `Sort(dir, s)`. */
  lemma StableSortUnique(dir: Direction, out: seq<Ranked>, s: seq<Ranked>)
    requires IsStableSortOf(dir, out, s)
    ensures out == Sort(dir, s)
  {
    SortIsStableSort(dir, s);
    forall v ensures WithScore(out, v) == WithScore(Sort(dir, s), v) {
    }
    SameScoresSameRanking(dir, out, Sort(dir, s));
  }
}

=== FILE: store.dfy ===
/** The feature store: `loadFeatures` builds a mapping from image keys to
    feature vectors out of a directory of feature files, and
    `extractReqFeatures` resolves a query file name against it.

    The directory read is an input: a sequence of files in directory order,
    each with its name and text. `parseFloat(line.trim())` is the parameter
    `parse`. The mapping is a JavaScript object, modelled as a sequence of
    entries in insertion order with distinct keys; assigning to an existing
    key replaces the vector and keeps the entry's position. */
module FeatureStore {
  import opened Wrappers
  import Paths
  import Text
  import Metrics

  type Vector = Metrics.Vector

  datatype Entry = Entry(key: string, vector: Vector)

  type Store = seq<Entry>

  /** One directory entry of the model's feature folder. */
  datatype FeatureFile = FeatureFile(name: string, content: string)

  const ImageDirectory: string := "public/image/"
  const ImageExtension: string := ".jpg"

  /** The keys in insertion order (`Object.keys`). */
  function Keys(st: Store): (ks: seq<string>)
    ensures |ks| == |st|
    ensures forall i :: 0 <= i < |st| ==> ks[i] == st[i].key
  {
    seq(|st|, i requires 0 <= i < |st| => st[i].key)
  }

  predicate DistinctKeys(st: Store) {
    forall i, j :: 0 <= i < j < |st| ==> st[i].key != st[j].key
  }

  /** `features[key]`: the vector stored under `key`, if any. */
  function Lookup(st: Store, key: string): (r: Option<Vector>)
    ensures r.Some? <==> key in Keys(st)
    ensures r.Some? ==> Entry(key, r.value) in st
  {
    if |st| == 0 then
      None
    else if st[0].key == key then
      Some(st[0].vector)
    else
      var r := Lookup(st[1..], key);
      assert Keys(st) == [st[0].key] + Keys(st[1..]);
      assert forall i :: 1 <= i < |st| ==> st[i] == st[1..][i - 1];
      r
  }

  /** With distinct keys, a lookup finds the one entry holding the key. */
  lemma {:induction false} LookupFindsEntry(st: Store, i: nat)
    requires DistinctKeys(st) && i < |st|
    ensures Lookup(st, st[i].key) == Some(st[i].vector)
    decreases |st|
  {
    if i > 0 {
      var t := st[1..];
      assert t[i - 1] == st[i];
      assert DistinctKeys(t) by {
        forall a, b | 0 <= a < b < |t| ensures t[a].key != t[b].key {
          assert t[a] == st[a + 1] && t[b] == st[b + 1];
        }
      }
      LookupFindsEntry(t, i - 1);
    }
  }

  /** `features[key] = v`: overwrite in place when the key is present,
      append otherwise. */
  function Put(st: Store, key: string, v: Vector): (r: Store)
    ensures Keys(r) == if key in Keys(st) then Keys(st) else Keys(st) + [key]
    ensures DistinctKeys(st) ==> DistinctKeys(r)
    ensures Lookup(r, key) == Some(v)
    ensures forall k :: k != key ==> Lookup(r, k) == Lookup(st, k)
  {
    if key in Keys(st) then
      var r := seq(|st|, i requires 0 <= i < |st| => if st[i].key == key then Entry(key, v) else st[i]);
      assert Keys(r) == Keys(st);
      PutLookup(st, key, v, r);
      r
    else
      var r := st + [Entry(key, v)];
      assert Keys(r) == Keys(st) + [key];
      AppendLookup(st, key, v);
      r
  }

  lemma {:induction false} PutLookup(st: Store, key: string, v: Vector, r: Store)
    requires |r| == |st|
    requires forall i :: 0 <= i < |st| ==> r[i] == if st[i].key == key then Entry(key, v) else st[i]
    requires key in Keys(st)
    ensures Lookup(r, key) == Some(v)
    ensures forall k :: k != key ==> Lookup(r, k) == Lookup(st, k)
    decreases |st|
  {
    assert r[0].key == st[0].key;
    if st[0].key != key {
      assert Keys(st) == [st[0].key] + Keys(st[1..]);
      PutLookup(st[1..], key, v, r[1..]);
    } else {
      forall k | k != key ensures Lookup(r, k) == Lookup(st, k) {
        LookupUnchanged(st, r, key, k);
      }
    }
  }

  /** Rewriting the entries of one key leaves every other key's lookup alone. */
  lemma {:induction false} LookupUnchanged(st: Store, r: Store, key: string, k: string)
    requires |r| == |st| && k != key
    requires forall i :: 0 <= i < |st| ==> r[i].key == st[i].key
    requires forall i :: 0 <= i < |st| && st[i].key != key ==> r[i] == st[i]
    ensures Lookup(r, k) == Lookup(st, k)
    decreases |st|
  {
    if |st| > 0 && st[0].key != k {
      LookupUnchanged(st[1..], r[1..], key, k);
    }
  }

  lemma {:induction false} AppendLookup(st: Store, key: string, v: Vector)
    requires key !in Keys(st)
    ensures Lookup(st + [Entry(key, v)], key) == Some(v)
    ensures forall k :: k != key ==> Lookup(st + [Entry(key, v)], k) == Lookup(st, k)
    decreases |st|
  {
    var r := st + [Entry(key, v)];
    if |st| > 0 {
      assert r[1..] == st[1..] + [Entry(key, v)];
      assert Keys(st) == [st[0].key] + Keys(st[1..]);
      AppendLookup(st[1..], key, v);
    }
  }

  /** The key under which a feature file is stored:
      `public/image/<name without extension>.jpg`. */
  function ImageKey(fileName: string): string {
    ImageDirectory + Paths.Stem(fileName) + ImageExtension
  }

  /** A key's basename is the file's stem with the image extension, so a
      query naming that image finds it. */
  lemma ImageKeyShape(fileName: string)
    ensures Paths.Basename(ImageKey(fileName)) == Paths.Stem(fileName) + ImageExtension
    ensures ImageKey(fileName) == ImageDirectory + Paths.Basename(ImageKey(fileName))
  {
    KeyOfStemShape(Paths.Stem(fileName));
  }

  lemma KeyOfStemShape(stem: string)
    requires '/' !in stem
    ensures Paths.Basename(ImageDirectory + stem + ImageExtension) == stem + ImageExtension
  {
    var c := stem + ImageExtension;
    assert '/' !in c by {
      assert '/' !in ImageExtension;
      forall i | 0 <= i < |c| ensures c[i] != '/' {
        if i < |stem| { assert c[i] == stem[i]; } else { assert c[i] == ImageExtension[i - |stem|]; }
      }
    }
    Paths.BasenameAfterDirectory("public/image", c);
    assert "public/image" + "/" + c == ImageDirectory + stem + ImageExtension;
  }

  /** Two files share a key exactly when they share a stem. */
  lemma ImageKeyInjective(a: string, b: string)
    ensures ImageKey(a) == ImageKey(b) <==> Paths.Stem(a) == Paths.Stem(b)
  {
    KeyOfStemInjective(Paths.Stem(a), Paths.Stem(b));
  }

  lemma KeyOfStemInjective(sa: string, sb: string)
    ensures ImageDirectory + sa + ImageExtension == ImageDirectory + sb + ImageExtension <==> sa == sb
  {
    if ImageDirectory + sa + ImageExtension == ImageDirectory + sb + ImageExtension {
      var ka, kb := ImageDirectory + sa + ImageExtension, ImageDirectory + sb + ImageExtension;
      assert |sa| == |sb|;
      assert sa == ka[|ImageDirectory|..|ImageDirectory| + |sa|];
      assert sb == kb[|ImageDirectory|..|ImageDirectory| + |sb|];
    }
  }

  /** The vector of one feature file: each newline-separated field parsed,
      with the last field dropped (`data.pop()`), so there is one number per
      newline in the text. */
  function ParseRecord(content: string, parse: string -> real): (v: Vector)
    ensures |v| == multiset(content)['\n']
    ensures |v| + 1 == |Text.Split(content, '\n')|
    ensures forall i :: 0 <= i < |v| ==> v[i] == parse(Text.Split(content, '\n')[i])
  {
    var fields := Text.Split(content, '\n');
    Text.SplitLength(content, '\n');
    seq(|fields| - 1, i requires 0 <= i < |fields| - 1 => parse(fields[i]))
  }

  /** Assigning entries one after another, as the `features[key] = vector`
      statements of a loop do. */
  function Assign(es: seq<Entry>): (st: Store)
    ensures DistinctKeys(st)
    ensures |st| <= |es|
    decreases |es|
  {
    if |es| == 0 then
      []
    else
      var last := es[|es| - 1];
      Put(Assign(es[..|es| - 1]), last.key, last.vector)
  }

  /** The distinct elements of `s` in order of first occurrence. */
  function Dedup(s: seq<string>): (d: seq<string>)
    ensures forall x :: x in d <==> x in s
    ensures forall i, j :: 0 <= i < j < |d| ==> d[i] != d[j]
  {
    if |s| == 0 then
      []
    else
      var d := Dedup(s[..|s| - 1]);
      assert s == s[..|s| - 1] + [s[|s| - 1]];
      if s[|s| - 1] in d then d else d + [s[|s| - 1]]
  }

  /** The index of the first occurrence of `x` in `s`. */
  function FirstIndex(s: seq<string>, x: string): (i: nat)
    requires x in s
    ensures i < |s| && s[i] == x && x !in s[..i]
  {
    if s[0] == x then
      0
    else
      var i := 1 + FirstIndex(s[1..], x);
      assert s[..i] == [s[0]] + s[1..][..i - 1];
      i
  }

  /** An index holding `x` with no `x` before it is the first index. */
  lemma FirstIndexAt(s: seq<string>, x: string, i: nat)
    requires i < |s| && s[i] == x && x !in s[..i]
    ensures FirstIndex(s, x) == i
  {
  }

  /** An element of a prefix is first seen inside that prefix. */
  lemma FirstIndexInPrefix(s: seq<string>, n: nat, y: string)
    requires n <= |s| && y in s[..n]
    ensures FirstIndex(s, y) == FirstIndex(s[..n], y)
  {
    var f := FirstIndex(s[..n], y);
    assert s[..n][..f] == s[..f];
    FirstIndexAt(s, y, f);
  }

  /** `Dedup` lists its elements in the order they are first seen in `s`. */
  lemma {:induction false} DedupFirstSeenOrder(s: seq<string>)
    ensures forall i, j :: 0 <= i < j < |Dedup(s)| ==> FirstIndex(s, Dedup(s)[i]) < FirstIndex(s, Dedup(s)[j])
  {
    if |s| > 0 {
      var n := |s| - 1;
      var front := s[..n];
      var d', d := Dedup(front), Dedup(s);
      DedupFirstSeenOrder(front);
      assert |d| <= |d'| + 1 && d[..|d'|] == d';
      forall i, j | 0 <= i < j < |d| ensures FirstIndex(s, d[i]) < FirstIndex(s, d[j]) {
        assert d[i] == d'[i] && d'[i] in front;
        FirstIndexInPrefix(s, n, d'[i]);
        if j < |d'| {
          assert d[j] == d'[j] && d'[j] in front;
          FirstIndexInPrefix(s, n, d'[j]);
          assert FirstIndex(front, d'[i]) < FirstIndex(front, d'[j]);
        } else {
          assert d[j] == s[n] && s[n] !in front;
          FirstIndexAt(s, s[n], n);
          assert FirstIndex(front, d'[i]) < n;
        }
      }
    }
  }

  lemma DedupSnoc(s: seq<string>, x: string)
    ensures Dedup(s + [x]) == if x in Dedup(s) then Dedup(s) else Dedup(s) + [x]
  {
    assert (s + [x])[..|s|] == s;
  }

  lemma KeysStep(es: Store)
    requires |es| > 0
    ensures Keys(es) == Keys(es[..|es| - 1]) + [es[|es| - 1].key]
  {
    var front := es[..|es| - 1];
    var ks, rhs := Keys(es), Keys(front) + [es[|es| - 1].key];
    forall i | 0 <= i < |ks| ensures ks[i] == rhs[i] {
      if i < |front| {
        assert front[i] == es[i];
      }
    }
  }

  /** The keys after one more assignment. */
  lemma AssignKeysStep(es: seq<Entry>)
    requires |es| > 0
    ensures var before, k := Assign(es[..|es| - 1]), es[|es| - 1].key;
      Keys(Assign(es)) == if k in Keys(before) then Keys(before) else Keys(before) + [k]
  {
  }

  /** One more assignment to another key leaves a lookup alone. */
  lemma AssignOtherKey(es: seq<Entry>, key: string)
    requires |es| > 0 && es[|es| - 1].key != key
    ensures Lookup(Assign(es), key) == Lookup(Assign(es[..|es| - 1]), key)
  {
  }

  /** The last assignment is in force. */
  lemma AssignLastEntry(es: seq<Entry>)
    requires |es| > 0
    ensures Lookup(Assign(es), es[|es| - 1].key) == Some(es[|es| - 1].vector)
  {
  }

  /** The assigned keys, each once, in the order of their first assignment:
      a later assignment to a key does not move it. */
  lemma {:induction false} AssignKeys(es: seq<Entry>)
    ensures Keys(Assign(es)) == Dedup(Keys(es))
    decreases |es|
  {
    if |es| > 0 {
      var n := |es| - 1;
      var front := es[..n];
      AssignKeys(front);
      AssignKeysStep(es);
      KeysStep(es);
      DedupSnoc(Keys(front), es[n].key);
    }
  }

  /** A key never assigned is absent. */
  lemma {:induction false} AssignAbsent(es: seq<Entry>, key: string)
    requires key !in Keys(es)
    ensures Lookup(Assign(es), key) == None
    decreases |es|
  {
    if |es| > 0 {
      var n := |es| - 1;
      KeysStep(es);
      AssignAbsent(es[..n], key);
      AssignOtherKey(es, key);
    }
  }

  /** A key holds the value of its LAST assignment. */
  lemma {:induction false} AssignLastWins(es: seq<Entry>, i: nat, key: string)
    requires i < |es| && es[i].key == key
    requires forall j :: i < j < |es| ==> es[j].key != key
    ensures Lookup(Assign(es), key) == Some(es[i].vector)
    decreases |es|
  {
    if i < |es| - 1 {
      LastWinsStep(es, i, key);
      AssignLastWins(es[..|es| - 1], i, key);
      AssignOtherKey(es, key);
    } else {
      AssignLastEntry(es);
    }
  }

  lemma LastWinsStep(es: seq<Entry>, i: nat, key: string)
    requires i < |es| - 1 && es[i].key == key
    requires forall j :: i < j < |es| ==> es[j].key != key
    ensures var front := es[..|es| - 1];
      && front[i].key == key && front[i].vector == es[i].vector
      && forall j :: i < j < |front| ==> front[j].key != key
  {
  }

  /** One assignment per feature file, in directory order: the file's image
      key and its record. */
  function FileEntries(files: seq<FeatureFile>, parse: string -> real): (es: seq<Entry>)
    ensures |es| == |files|
    ensures forall i :: 0 <= i < |files| ==>
      es[i] == Entry(ImageKey(files[i].name), ParseRecord(files[i].content, parse))
  {
    seq(|files|, i requires 0 <= i < |files| => Entry(ImageKey(files[i].name), ParseRecord(files[i].content, parse)))
  }

  /** `loadFeatures`: every file of the folder in directory order, each
      stored under its image key. */
  function LoadFeatures(files: seq<FeatureFile>, parse: string -> real): (st: Store)
    ensures DistinctKeys(st)
    ensures |st| <= |files|
  {
    Assign(FileEntries(files, parse))
  }

  /** The image keys of a folder's files, in directory order. */
  function FileKeys(files: seq<FeatureFile>): (ks: seq<string>)
    ensures |ks| == |files|
    ensures forall i :: 0 <= i < |files| ==> ks[i] == ImageKey(files[i].name)
  {
    seq(|files|, i requires 0 <= i < |files| => ImageKey(files[i].name))
  }

  /** The store's keys are the files' keys, each once, in the order the
      first file with that key was read. */
  lemma LoadFeaturesKeys(files: seq<FeatureFile>, parse: string -> real)
    ensures Keys(LoadFeatures(files, parse)) == Dedup(FileKeys(files))
  {
    var es := FileEntries(files, parse);
    AssignKeys(es);
    assert Keys(es) == FileKeys(files);
  }

  /** A key that no file of the folder produces is absent from the store. */
  lemma LoadFeaturesAbsent(files: seq<FeatureFile>, parse: string -> real, key: string)
    requires forall i :: 0 <= i < |files| ==> ImageKey(files[i].name) != key
    ensures Lookup(LoadFeatures(files, parse), key) == None
  {
    var es := FileEntries(files, parse);
    assert Keys(es) == FileKeys(files);
    AssignAbsent(es, key);
  }

  /** The vector stored under a file's key is the record of the LAST file
      with that key: a later file with the same stem overwrites an earlier
      one. */
  lemma LoadFeaturesLastWins(files: seq<FeatureFile>, parse: string -> real, i: nat)
    requires i < |files|
    requires forall j :: i < j < |files| ==> ImageKey(files[j].name) != ImageKey(files[i].name)
    ensures Lookup(LoadFeatures(files, parse), ImageKey(files[i].name)) == Some(ParseRecord(files[i].content, parse))
  {
    AssignLastWins(FileEntries(files, parse), i, ImageKey(files[i].name));
  }

  /** `extractReqFeatures(fileName, features)`: the vector under
      `public/image/<basename of fileName>`, or none. */
  function ExtractReqFeatures(fileName: string, st: Store): (r: Option<Vector>)
    ensures r.Some? <==> ImageDirectory + Paths.Basename(fileName) in Keys(st)
    ensures r.Some? ==> Entry(ImageDirectory + Paths.Basename(fileName), r.value) in st
  {
    Lookup(st, ImageDirectory + Paths.Basename(fileName))
  }

  /** Only the last component of a query path counts: a name found under
      one directory is found, with the same vector, under any other. */
  lemma ExtractIgnoresDirectory(d: string, c: string, st: Store)
    requires '/' !in c && |c| > 0
    ensures ExtractReqFeatures(d + "/" + c, st) == ExtractReqFeatures(c, st)
  {
    Paths.BasenameAfterDirectory(d, c);
    Paths.BasenameOfComponent(c);
  }

  /** A query whose basename is `<stem>.jpg` finds the record of the last
      feature file with that stem, wherever the query's directory part
      points. */
  lemma ExtractAfterLoad(files: seq<FeatureFile>, parse: string -> real, i: nat, query: string)
    requires i < |files|
    requires forall j :: i < j < |files| ==> Paths.Stem(files[j].name) != Paths.Stem(files[i].name)
    requires Paths.Basename(query) == Paths.Stem(files[i].name) + ImageExtension
    ensures ExtractReqFeatures(query, LoadFeatures(files, parse)) == Some(ParseRecord(files[i].content, parse))
  {
    var key := ImageKey(files[i].name);
    ImageKeyShape(files[i].name);
    assert ImageDirectory + Paths.Basename(query) == key;
    forall j | i < j < |files| ensures ImageKey(files[j].name) != key {
      ImageKeyInjective(files[j].name, files[i].name);
    }
    LoadFeaturesLastWins(files, parse, i);
  }
}

=== FILE: text.dfy ===
/** String operations of the retrieval core: splitting a feature file into
    its newline-separated fields (JavaScript `String.prototype.split` with a
    one-character separator), `indexOf`, and `removeUpToChar`.
    A `char` stands for one UTF-16 code unit of a JavaScript string; no
    encoding or decoding is modelled. */
module Text {

  /** `pat` occurs in `s` starting at index `k`. */
  predicate OccursAt(s: string, pat: string, k: int) {
    0 <= k && k + |pat| <= |s| && s[k..k + |pat|] == pat
  }

  /** `s.indexOf(pat)`: the first index where `pat` occurs, or -1. */
  function IndexOf(s: string, pat: string): (i: int)
    ensures -1 <= i
    ensures i >= 0 ==> i + |pat| <= |s|
    ensures i == -1 <==> forall k :: !OccursAt(s, pat, k)
    ensures i >= 0 ==> IsFirstOccurrence(s, pat, i)
    decreases |s|
  {
    if |pat| > |s| then
      -1
    else if s[..|pat|] == pat then
      assert OccursAt(s, pat, 0);
      0
    else
      var j := IndexOf(s[1..], pat);
      ShiftOccurrence(s, pat);
      assert !OccursAt(s, pat, 0);
      if j == -1 then
        -1
      else
        assert OccursAt(s, pat, j + 1);
        j + 1
  }

  /** `i` is where `pat` first occurs in `s`. */
  predicate IsFirstOccurrence(s: string, pat: string, i: int) {
    OccursAt(s, pat, i) && forall k :: 0 <= k < i ==> !OccursAt(s, pat, k)
  }

  lemma ShiftOccurrence(s: string, pat: string)
    requires |s| > 0
    ensures forall k :: 1 <= k ==> (OccursAt(s, pat, k) <==> OccursAt(s[1..], pat, k - 1))
  {
    forall k | 1 <= k
      ensures OccursAt(s, pat, k) <==> OccursAt(s[1..], pat, k - 1)
    {
      if k + |pat| <= |s| {
        var a, b := s[k..k + |pat|], s[1..][k - 1..k - 1 + |pat|];
        forall m | 0 <= m < |pat| ensures a[m] == b[m] {
        }
        assert a == b;
      }
    }
  }

  /** `str.substring(start)`: the suffix from `start`, clamped to the string. */
  function SubstringFrom(s: string, start: nat): (r: string)
    ensures |r| == if start <= |s| then |s| - start else 0
    ensures r == s[|s| - |r|..]
  {
    if start <= |s| then s[start..] else ""
  }

  /** `removeUpToChar(str, char)`: when `char` occurs in `str`, everything up
      to and including the first code unit of its first occurrence is
      dropped; otherwise `str` comes back unchanged. The source advances by
      one code unit whatever the length of `char`, so an empty `char`
      (found at index 0) drops the first code unit. */
  function RemoveUpToChar(s: string, c: string): (r: string)
    ensures (forall k :: !OccursAt(s, c, k)) ==> r == s
    ensures forall i :: IsFirstOccurrence(s, c, i) ==> r == SubstringFrom(s, i + 1)
  {
    var i := IndexOf(s, c);
    if i == -1 then
      s
    else
      FirstOccurrenceUnique(s, c, i);
      SubstringFrom(s, i + 1)
  }

  lemma FirstOccurrenceUnique(s: string, pat: string, i: int)
    requires IsFirstOccurrence(s, pat, i)
    ensures forall j :: IsFirstOccurrence(s, pat, j) ==> j == i
  {
  }

  /** For a one-character `c` that occurs in `s`, `RemoveUpToChar` returns
      the proper suffix of `s` that follows the first `c`: the code unit just
      before it is `c`, and no `c` occurs before that. */
  lemma RemoveUpToSingleChar(s: string, c: string)
    requires |c| == 1 && c[0] in s
    ensures var r := RemoveUpToChar(s, c);
      && |r| < |s|
      && r == s[|s| - |r|..]
      && s[|s| - |r| - 1] == c[0]
      && c[0] !in s[..|s| - |r| - 1]
  {
    var n :| 0 <= n < |s| && s[n] == c[0];
    assert s[n..n + 1] == c;
    var i := IndexOf(s, c);
    assert i != -1 by { assert OccursAt(s, c, n); }
    assert s[i..i + 1] == c;
    var r := s[i + 1..];
    assert RemoveUpToChar(s, c) == r;
    assert |s| - |r| - 1 == i;
    forall k | 0 <= k < i ensures s[k] != c[0] {
      assert !OccursAt(s, c, k);
      assert s[k..k + 1] == [s[k]];
    }
    assert forall k :: 0 <= k < i ==> s[..i][k] == s[k];
  }

  /** `s.split(sep)` for a one-character separator: the maximal runs between
      separators, always at least one field. */
  function Split(s: string, sep: char): (parts: seq<string>)
    ensures |parts| > 0
    ensures forall i :: 0 <= i < |parts| ==> sep !in parts[i]
    decreases |s|
  {
    if |s| == 0 then
      [""]
    else
      assert s == [s[0]] + s[1..];
      var rest := Split(s[1..], sep);
      if s[0] == sep then
        [""] + rest
      else
        [[s[0]] + rest[0]] + rest[1..]
  }

  /** There is one more field than there are separators. */
  lemma {:induction false} SplitLength(s: string, sep: char)
    ensures |Split(s, sep)| == multiset(s)[sep] + 1
    decreases |s|
  {
    if |s| > 0 {
      SplitLength(s[1..], sep);
      assert s == [s[0]] + s[1..];
      assert multiset(s) == multiset([s[0]]) + multiset(s[1..]);
    }
  }

  /** The inverse of `Split`: the fields glued back with the separator. */
  function Join(parts: seq<string>, sep: char): string
  {
    if |parts| == 0 then ""
    else if |parts| == 1 then parts[0]
    else parts[0] + [sep] + Join(parts[1..], sep)
  }

  /** Joining the fields of `s` gives `s` back. */
  lemma {:induction false} JoinSplit(s: string, sep: char)
    ensures Join(Split(s, sep), sep) == s
    decreases |s|
  {
    if |s| > 0 {
      var rest := Split(s[1..], sep);
      JoinSplit(s[1..], sep);
      assert Join(rest, sep) == s[1..];
      if s[0] == sep {
        var parts := [""] + rest;
        assert Split(s, sep) == parts;
        assert parts[1..] == rest;
        assert Join(parts, sep) == "" + [sep] + Join(rest, sep);
        assert s == [s[0]] + s[1..];
      } else {
        var parts := [[s[0]] + rest[0]] + rest[1..];
        assert Split(s, sep) == parts;
        if |rest| == 1 {
          assert Join(parts, sep) == [s[0]] + rest[0];
        } else {
          assert parts[1..] == rest[1..];
          assert Join(rest, sep) == rest[0] + [sep] + Join(rest[1..], sep);
          assert Join(parts, sep) == [s[0]] + rest[0] + [sep] + Join(rest[1..], sep);
        }
        assert s == [s[0]] + s[1..];
      }
    }
  }

  /** Splitting a field without separators in front of `t` extends `t`'s
      first field. */
  lemma {:induction false} SplitPrefix(a: string, t: string, sep: char)
    requires sep !in a
    ensures Split(a + t, sep) == [a + Split(t, sep)[0]] + Split(t, sep)[1..]
    decreases |a|
  {
    var st := Split(t, sep);
    if |a| > 0 {
      assert (a + t)[1..] == a[1..] + t;
      assert (a + t)[0] == a[0];
      SplitPrefix(a[1..], t, sep);
      assert a == [a[0]] + a[1..];
      assert [a[0]] + (a[1..] + st[0]) == a + st[0];
    } else {
      assert a + t == t;
      assert a + st[0] == st[0];
      assert st == [st[0]] + st[1..];
    }
  }

  /** Splitting joined fields that hold no separator gives the fields back. */
  lemma {:induction false} SplitJoin(parts: seq<string>, sep: char)
    requires |parts| > 0
    requires forall i :: 0 <= i < |parts| ==> sep !in parts[i]
    ensures Split(Join(parts, sep), sep) == parts
    decreases |parts|
  {
    if |parts| == 1 {
      SplitPrefix(parts[0], "", sep);
      assert parts[0] + "" == parts[0];
      assert Split("", sep) == [""];
    } else {
      var tail := Join(parts[1..], sep);
      SplitJoin(parts[1..], sep);
      assert Join(parts, sep) == parts[0] + ([sep] + tail);
      SplitPrefix(parts[0], [sep] + tail, sep);
      assert ([sep] + tail)[1..] == tail;
      assert ([sep] + tail)[0] == sep;
      assert Split([sep] + tail, sep) == [""] + parts[1..];
      assert parts[0] + "" == parts[0];
      assert parts == [parts[0]] + parts[1..];
    }
  }
}

=== FILE: wrappers.dfy ===
/** Failure-carrying results: `Option` for lookups that may miss, `Result`
    for operations that throw in the source. */
module Wrappers {

  datatype Option<+T> = None | Some(value: T)

  datatype Result<+R, +E> = Success(value: R) | Failure(error: E) {

    predicate IsFailure() {
      Failure?
    }

    function PropagateFailure<U>(): Result<U, E>
      requires Failure?
    {
      Failure(error)
    }

    function Extract(): R
      requires Success?
    {
      value
    }
  }
}
